=== FILE: README.md ===
# Flava recipe backend: a Dafny model of its handlers

Flava is a FastAPI recipe service. Its logic lives in two small decision layers over a relational
store:

- the recipe router (create, list, filter by meal type, case-insensitive name search, get by id,
  partial update, delete);
- the user router and its authentication helpers (registration with a hashed password, login that
  issues a signed bearer token, lookup by id, and the `get_current_user` gate that turns a bearer
  token back into a user).

This project models both layers as pure functions. Each table is a finite map from primary key to
row. A handler that writes returns the table as committed. A handler that fails returns a
`Failure`, which is either an `HTTPException` it raised or an uncaught database or validation error.
The password context (bcrypt) and the token library (JWT) are foreign code. They appear as values
holding functions (`Auth.Hasher`, `Auth.Codec`). What the model relies on about them is stated as the
predicates `Auth.SoundHasher` and `Auth.SoundCodec`, and the lemmas that need these take them as
preconditions.

Modules, following the source layout:

| module | file | models |
|---|---|---|
| `Wrappers` | wrappers.dfy | `Option`, `Result` |
| `Http` | http.dfy | `HTTPException`, status codes, uncaught failures |
| `Text` | text.dfy | ASCII lower-casing, substring search, hex digits |
| `Ids` | ids.dfy | 128-bit UUID keys and their `str()` form |
| `Enums` | enums.dfy | `MealType` |
| `RecipeSchema` | recipe_schema.dfy | `RecipeBase` fields, the update patch and its merge |
| `RecipeRouter` | recipe_router.dfy | the seven recipe handlers |
| `Users` | users.dfy | the user table with its unique email and username |
| `Auth` | auth.dfy | hashing, token issuance, `get_current_user` |
| `UserRouter` | user_router.dfy | `create_user`, `login`, `get_user` |

Parameters stand in for everything nondeterministic:

- `id` is the key SQLAlchemy generates with `uuid4` on insert.
- `salt` is the hasher's randomness.
- `now` is the clock, in whole seconds.
- `expireMinutes` is the `ACCESS_TOKEN_EXPIRE_MINUTES` setting.

Behaviour of the code worth knowing when reading the contracts:

- Registration does not catch the commit's integrity error, so a duplicate key, email or username
  is a 500 (`Failure.IntegrityViolation`).
- Both login failures are 404s, and their details differ ("Invalid credentials!" against
  "Invalid credentials").
- Hashing or verifying a password longer than 4096 bytes in UTF-8, or one holding a NUL character,
  raises inside the password library, and nothing catches it: registration is then a 500 before any
  row is written, and login with a known email is a 500 rather than the 404
  (`Failure.PasswordRefused`).
- The recipe routes carry no authentication dependency, so they are not gated here.
- The application object mounts only the recipe router (app/main.py:8). The user routes, and the
  `get_current_user` dependency, are not reachable through the app as written; this model describes
  the handlers as they would behave once mounted.

`RecipeUpdate` is imported by the recipe router (app/routers/recipe.py:4) but is not defined in
`app/schemas/recipe.py`, so importing the recipe router module, and with it starting the app, fails
as written.
`RecipeSchema.RecipePatch` is this model's reading of it: each of the six base fields, optionally
set.

## Model

| member | source | states |
|---|---|---|
| RecipeSchema.ApplyPatch | app/routers/recipe.py:83-84 | each field set in the patch takes the patch's value; each unset field keeps the stored value |
| RecipeSchema.EmptyPatchIsIdentity | app/routers/recipe.py:83-84 | an update body with no field set leaves the recipe unchanged |
| RecipeSchema.ApplyPatchIdempotent | app/routers/recipe.py:83-84 | applying the same patch twice equals applying it once |
| RecipeSchema.FullPatchReplaces | app/routers/recipe.py:83-84 | a patch setting all six fields yields exactly those values, whatever the stored recipe was |
| RecipeSchema.ApplyPatchComposes | app/routers/recipe.py:83-84 | two successive updates equal one update carrying the later value of each field |
| RecipeRouter.CreateRecipe | app/routers/recipe.py:16-30 | succeeds iff the generated key is unused; then the table gains exactly that key holding the six body fields, every earlier row is unchanged, and the response is the new row; a used key is an integrity failure |
| RecipeRouter.GetRecipes | app/routers/recipe.py:32-35 | the result holds a response exactly when the table stores that row under that key |
| RecipeRouter.FilterByMealType | app/routers/recipe.py:38-47 | succeeds iff some row has the meal type; then the result is exactly the stored rows of that type; otherwise a 404 naming the type's value |
| RecipeRouter.SearchRecipe | app/routers/recipe.py:50-59 | succeeds iff some lower-cased name contains the lower-cased query; then the result is exactly those stored rows; otherwise a 404 naming the query |
| RecipeRouter.GetRecipe | app/routers/recipe.py:62-71 | the stored row when the key is present, a 404 "does not exist" otherwise |
| RecipeRouter.UpdateRecipe | app/routers/recipe.py:74-89 | a 404 for an absent key; otherwise the key set is unchanged, the row becomes the patched row, it is returned, and every other row is unchanged |
| RecipeRouter.DeleteRecipe | app/routers/recipe.py:92-102 | a 404 for an absent key; otherwise exactly that key is removed and every other row is unchanged |
| RecipeRouter.CreateThenRead | app/routers/recipe.py:16-35 | after a create, the new key reads back as the body and the listing grows by exactly the new row |
| RecipeRouter.CreateThenFilter | app/routers/recipe.py:16-47 | after a create, the filter for the body's meal type succeeds and lists the new row |
| RecipeRouter.CreateThenDeleteRestores | app/routers/recipe.py:16-30 | deleting a just-created row gives back the original table |
| RecipeRouter.DeleteTwiceFails | app/routers/recipe.py:92-102 | a delete succeeds, the key then reads as absent, and a second delete of it is the 404 |
| RecipeRouter.UpdateWithEmptyPatchKeepsTable | app/routers/recipe.py:74-89 | an empty update of a present key commits the table unchanged and returns the stored row |
| RecipeRouter.UpdateIdempotent | app/routers/recipe.py:74-89 | repeating an update leaves the table as the first update left it |
| RecipeRouter.FiltersPartitionListing | app/routers/recipe.py:32-47 | the rows found by the four meal-type filters together are exactly the full listing |
| RecipeRouter.SearchIgnoresQueryCase | app/routers/recipe.py:50-59 | queries equal after lower-casing find the same rows |
| RecipeRouter.EmptySearchListsAll | app/routers/recipe.py:50-59 | an empty query lists the whole table, or is a 404 on an empty table |
| Enums.MealTypeValueInjective | app/helpers/enums.py:3-7 | the four members have pairwise distinct string values |
| Text.Occurs | app/routers/recipe.py:51 | the executable substring test is true iff the query occurs at some index of the text |
| Users.FindByEmail | app/routers/user.py:37 | finds a row holding the email iff one exists |
| Users.FindByUsername | app/utils/auth.py:61 | finds a row holding the username iff one exists |
| Users.FindByEmailFindsOwner | app/models/user.py:9 | with unique emails, the email lookup returns the one row holding it |
| Users.FindByUsernameFindsOwner | app/models/user.py:10 | with unique usernames, the username lookup returns the one row holding it |
| Auth.HashThenVerify | app/utils/auth.py:20-28 | under a sound hasher, `hash_password` succeeds exactly for the passwords the bcrypt context accepts, and `verify_password` then returns true against that digest; for any other password both calls raise |
| Auth.RefusedSecrets | app/utils/auth.py:20-28 | a password holding a NUL, or longer than 4096 characters, is not accepted by the bcrypt context |
| Auth.Expiry | app/utils/auth.py:34-37 | the token lives for the given delta when it is present and non-zero, and for 900 seconds otherwise |
| Auth.ZeroDeltaGetsDefault | app/utils/auth.py:34-37 | a zero delta is falsy and expires like no delta: fifteen minutes |
| Auth.AccessClaims | app/utils/auth.py:32-39 | the signed claims are the caller's claims plus `exp`, with `exp` holding the expiry instant and every other claim copied unchanged |
| Auth.CreateAccessToken | app/utils/auth.py:31-41 | under a sound codec and for claims holding at most a string `sub`, the token decodes to exactly the claims plus `exp` before expiry and is refused from expiry on |
| Auth.GetCurrentUser | app/utils/auth.py:44-65 | succeeds iff the token decodes, its `sub` is a string, and some user has that username; the user returned is stored and its username is the `sub`; every other outcome is the one credentials error (401, detail "Could not validate credentials", header `WWW-Authenticate: Bearer`), or a validation failure exactly when `sub` is present, not null and not a string |
| Auth.RejectsUndecodableToken | app/utils/auth.py:51-59 | a token that fails to decode is rejected with the 401 |
| Auth.RejectsMissingSubject | app/utils/auth.py:54-56 | a payload without `sub`, or with a null `sub`, is rejected with the 401 |
| Auth.RejectsUnknownSubject | app/utils/auth.py:61-64 | a `sub` naming no user is rejected with the 401 |
| UserRouter.CreateUser | app/routers/user.py:19-33 | succeeds iff the password is accepted by the hasher and the key, email and username are all unused; then the table gains exactly the new row, with name, email and username copied and the password replaced by its digest; earlier rows are unchanged; the response omits the digest; a refused password is the uncaught hashing failure, otherwise an integrity failure |
| UserRouter.RegisteredPasswordVerifies | app/routers/user.py:19-27 | under a sound hasher, the registered password verifies against the stored digest |
| UserRouter.PlaintextNeverStored | app/routers/user.py:20-27 | if the hasher never returns its input, the stored password differs from the plaintext |
| UserRouter.DuplicateRegistrationRejected | app/routers/user.py:20-31 | a taken email or username makes registration fail, so no new table is produced; with an accepted password the failure is the integrity error |
| UserRouter.Login | app/routers/user.py:36-57 | an unknown email is a 404 "Invalid credentials!"; a known email with a password the hasher refuses is the uncaught hashing failure; a known email with a wrong password is a 404 "Invalid credentials"; otherwise a bearer token signing `sub` as the username and `exp` as now plus the configured minutes (or 900 seconds when they are zero) |
| UserRouter.LoginFailuresLookAlike | app/routers/user.py:37-49 | a login failure is the uncaught hashing failure exactly when the email is known and the password refused; every other login failure is a 404 whose detail is one of the two "Invalid credentials" strings |
| UserRouter.LoginThenAuthenticate | app/routers/user.py:51-57 | a token from a successful login resolves to the same user through `get_current_user` until its expiry, and is refused with the 401 from then on |
| UserRouter.GetUser | app/routers/user.py:61-70 | the stored row when the key is present, a 404 naming the key otherwise |
| UserRouter.CreateThenGetUser | app/routers/user.py:19-33 | after a registration the new key reads back as the body's name, email and username with the digest as password, the key was absent before, and the response carries the new key |
| Ids.UuidText | app/routers/recipe.py:68 | the `{id}` in a 404 detail is 36 characters: hyphens at positions 8, 13, 18 and 23, hex digits elsewhere, and the digits read as a hexadecimal number give back the key |
| Ids.UuidTextInjective | app/routers/user.py:67 | distinct keys give distinct texts, so each 404 detail names exactly one key |

## Left out

- Database sessions, commit and refresh, `get_db` and `init_db`: the tables are maps, and a handler returns the committed map.
- The `created_at` and `updated_at` timestamps (`app/models/base.py`): they are set by the database clock. The create, get and update responses carry both (`RecipeResponse`, `UserResponse`), and the model's responses omit them. An update that changes any column also moves `updated_at`, so "unset fields keep their value" in `RecipeSchema.ApplyPatch` does not cover that column. An update that changes nothing emits no UPDATE and leaves `updated_at` as it was.
- bcrypt internals: hashing is the `Hasher` parameter. The model does include the library's refusal of over-long and NUL-holding passwords (`Auth.SecretAccepted`). A malformed stored digest, which the library reports by raising, is not modelled. Nor is the bcrypt backend's 72-byte limit, whose handling (silent truncation or an error) depends on the installed library versions.
- JWT encoding, signing, the secret, the algorithm setting and sub-second truncation of `exp`: the token is the `Codec` parameter.
- Auth.SoundCodec: the assumption covers only payloads of the shape this program signs, at most a string `sub` plus a numeric `exp` (`Auth.IssuedShape`). For those, it assumes decoding succeeds exactly while `now < exp` and fails from `exp <= now` on, as the JWT library does with zero leeway. Tokens with an audience, issuer, not-before or issued-at claim, which the library checks separately, are not described.
- Auth.CreateAccessToken: its decode promise is stated only for claims of the shape `Auth.SessionData` (at most a string `sub`), the only claims `login` passes; for other claims the library's own checks are outside the model.
- Reading and parsing `ACCESS_TOKEN_EXPIRE_MINUTES`: it is the integer parameter `expireMinutes`. A non-numeric setting, which would raise, is not modelled.
- Auth.Expiry: instants are unbounded integers. An expiry instant outside `datetime`'s range (years 1 to 9999) makes the addition raise `OverflowError`, which nothing catches (a 500). This case is not modelled.
- UserRouter.Login: a setting whose `timedelta(minutes=…)` overflows (more than 999999999 days), or whose expiry instant falls outside `datetime`'s range (years 1 to 9999), raises `OverflowError`. Nothing catches it, so login is a 500. The model issues a token in that case; the path is not modelled.
- Email sending (`app/utils/mail.py`): network I/O, and no handler calls it.
- FastAPI routing, dependency injection and request validation, including `EmailStr`: framework layer.
- RecipeRouter.SearchRecipe: the query is placed inside `ILIKE '%…%'` as is, so its own `%` and `_` act as wildcards and, on backends where `\` is the default LIKE escape (PostgreSQL, MySQL), a `\` escapes the next character or, at the end, the closing `%`. The exact effect depends on the database backend. The model matches the whole query literally. Case folding beyond ASCII letters is not modelled either.
- Result order of the list, filter and search queries: none is specified, so results are sets.
- A caller that explicitly sends `null` for a field of an update body makes the commit fail on the column's NOT NULL constraint, an uncaught 500, and leaves the row unchanged. `RecipePatch` fields hold values only, so this path is not modelled.
- `get_user` has no response model, so it returns the stored row including the digest. The model returns the stored `User` as is. How FastAPI serialises an ORM object is not modelled.

=== FILE: auth.dfy ===
/**
 * Password hashing, session-token issuance and the bearer-token gate.
 *
 * The bcrypt context and the JWT library are foreign code: they are passed in
 * as values holding functions (`Hasher`, `Codec`), and the properties the
 * model relies on are stated as the predicates `SoundHasher` and `SoundCodec`,
 * which the lemmas take as preconditions. Times are whole seconds.
 */
module Auth {
  import opened Wrappers
  import opened Http
  import opened Ids
  import opened Users

  /** The password context: salted hashing and verification against a digest. */
  datatype Hasher = Hasher(hash: (string, string) -> string, verify: (string, string) -> bool)

  /** A password always verifies against any digest made from it, whatever the salt. */
  ghost predicate SoundHasher(h: Hasher)
  {
    forall password, salt :: h.verify(password, h.hash(password, salt))
  }

  /** The largest secret, in bytes, the password library accepts. */
  const MAX_PASSWORD_SIZE: nat := 4096

  /** The number of bytes one character takes in UTF-8. */
  function Utf8Width(c: char): nat
  {
    if c as int < 0x80 then 1 else if c as int < 0x800 then 2 else if c as int < 0x1_0000 then 3 else 4
  }

  /** The length of a string's UTF-8 encoding, never shorter than the string. */
  function Utf8Length(s: string): (n: nat)
    ensures n >= |s|
  {
    if |s| == 0 then 0 else Utf8Width(s[0]) + Utf8Length(s[1..])
  }

  /**
   * The plaintexts the bcrypt context takes: at most `MAX_PASSWORD_SIZE` bytes
   * once encoded, and no NUL character. Hashing or verifying any other
   * plaintext raises (`PasswordSizeError`, `NullPasswordError`).
   */
  predicate SecretAccepted(password: string)
  {
    Utf8Length(password) <= MAX_PASSWORD_SIZE && '\0' !in password
  }

  /** `hash_password`: a fresh digest of `password`; `salt` stands for the hasher's randomness. */
  function HashPassword(h: Hasher, password: string, salt: string): Result<string, Failure>
  {
    if !SecretAccepted(password) then Err(PasswordRefused) else Ok(h.hash(password, salt))
  }

  /** `verify_password`: does the plaintext match the stored digest? */
  function VerifyPassword(h: Hasher, plain: string, hashed: string): Result<bool, Failure>
  {
    if !SecretAccepted(plain) then Err(PasswordRefused) else Ok(h.verify(plain, hashed))
  }

  /**
   * `verify_password(p, hash_password(p))`: an accepted password checks out
   * against a digest freshly made from it; any other password makes both calls raise.
   */
  lemma HashThenVerify(h: Hasher, password: string, salt: string)
    requires SoundHasher(h)
    ensures HashPassword(h, password, salt).Ok? <==> SecretAccepted(password)
    ensures HashPassword(h, password, salt).Ok? ==>
      VerifyPassword(h, password, HashPassword(h, password, salt).value) == Ok(true)
    ensures !SecretAccepted(password) ==>
      forall digest :: VerifyPassword(h, password, digest) == Err(PasswordRefused)
  {
  }

  /** A plaintext holding a NUL, or longer than 4096 characters, is refused. */
  lemma RefusedSecrets(password: string)
    ensures '\0' in password ==> !SecretAccepted(password)
    ensures |password| > MAX_PASSWORD_SIZE ==> !SecretAccepted(password)
  {
  }

  /** A JSON value as it appears in a token payload; other JSON shapes are `JOther`. */
  datatype Json = JNull | JString(s: string) | JNumber(n: int) | JOther

  /** The claims a token carries. */
  type Payload = map<string, Json>

  /** The signed-token library: `encode` signs a payload, `decode` checks a token at time `now`. */
  datatype Codec = Codec(encode: Payload -> string, decode: (string, int) -> Option<Payload>)

  /**
   * Claims of the shape this program passes to `create_access_token`: at most
   * a string `sub` (any `exp` is overwritten). No audience, issuer, not-before
   * or issued-at claim, which the library would check on its own.
   */
  predicate SessionData(data: Payload)
  {
    data.Keys <= {"sub", "exp"} && ("sub" in data ==> data["sub"].JString?)
  }

  /** The payloads this program signs: session data with a numeric `exp`. */
  predicate IssuedShape(p: Payload)
  {
    SessionData(p) && "exp" in p && p["exp"].JNumber?
  }

  /**
   * What the model relies on from the token library, for payloads of the shape
   * this program signs: such a token decodes back to its payload exactly while
   * the current time is before its `exp` claim, and is refused once `exp <= now`.
   */
  ghost predicate SoundCodec(c: Codec)
  {
    forall p: Payload, now: int ::
      IssuedShape(p) ==>
        c.decode(c.encode(p), now) == (if now < p["exp"].n then Some(p) else None)
  }

  /** `timedelta(minutes=15)`, the lifetime used when no truthy delta is given. */
  const DEFAULT_EXPIRY_SECONDS: int := 15 * 60

  /**
   * The expiry instant of a token issued at `now`. A delta is used only when it
   * is truthy, so an absent delta and a zero delta both get the default.
   */
  function Expiry(expiresDelta: Option<int>, now: int): (exp: int)
    ensures expiresDelta.Some? && expiresDelta.value != 0 ==> exp - now == expiresDelta.value
    ensures expiresDelta == None || expiresDelta == Some(0) ==> exp - now == DEFAULT_EXPIRY_SECONDS
  {
    if expiresDelta.Some? && expiresDelta.value != 0 then now + expiresDelta.value
    else now + DEFAULT_EXPIRY_SECONDS
  }

  /** A zero delta is falsy, so it gets the same fifteen minutes as no delta at all. */
  lemma ZeroDeltaGetsDefault(now: int)
    ensures Expiry(Some(0), now) == Expiry(None, now) == now + 900
  {
  }

  /**
   * The payload `create_access_token` signs: a copy of the caller's claims with
   * `exp` set (overwriting any `exp` the caller passed). The caller's map is a
   * value, so it is not changed.
   */
  function AccessClaims(data: Payload, expiresDelta: Option<int>, now: int): (p: Payload)
    ensures p.Keys == data.Keys + {"exp"}
    ensures forall k :: k in data && k != "exp" ==> p[k] == data[k]
    ensures p["exp"] == JNumber(Expiry(expiresDelta, now))
  {
    data["exp" := JNumber(Expiry(expiresDelta, now))]
  }

  /**
   * `create_access_token`: the signed payload. Under a sound codec, and for
   * claims of the shape this program passes, the token decodes to exactly
   * those claims before its expiry and is refused from then on.
   */
  function CreateAccessToken(c: Codec, data: Payload, expiresDelta: Option<int>, now: int): (token: string)
    ensures SoundCodec(c) && SessionData(data) ==>
      forall later :: c.decode(token, later) ==
        if later < Expiry(expiresDelta, now) then Some(AccessClaims(data, expiresDelta, now)) else None
  {
    c.encode(AccessClaims(data, expiresDelta, now))
  }

  /** The 401 every rejection of `get_current_user` raises. */
  const CredentialsException: Failure :=
    Raised(HttpException(UNAUTHORIZED, "Could not validate credentials", map["WWW-Authenticate" := "Bearer"]))

  /** The `sub` claim is usable as a name: present, not JSON null, and a string. */
  predicate SubjectIsString(p: Payload)
  {
    "sub" in p && p["sub"].JString?
  }

  /** `payload.get('sub') is None`: the claim is absent or JSON null. */
  predicate SubjectMissing(p: Payload)
  {
    "sub" !in p || p["sub"] == JNull
  }

  /**
   * `get_current_user`: decode the bearer token, read its `sub` claim, and
   * look up the user with that username. A failed decode, a missing `sub`
   * and an unknown username all raise the same 401. A `sub` that is neither
   * null nor a string is refused by the `TokenData` model, which the handler
   * does not catch.
   */
  function GetCurrentUser(t: UserTable, c: Codec, token: string, now: int): (r: Result<(Uuid, User), Failure>)
    ensures r.Ok? <==>
      var d := c.decode(token, now);
      d.Some? && SubjectIsString(d.value) && HasUsername(t, d.value["sub"].s)
    ensures r.Ok? ==> r.value.0 in t && t[r.value.0] == r.value.1
    ensures r.Ok? ==> c.decode(token, now).value["sub"] == JString(r.value.1.username)
    ensures r.Err? ==> r.error == CredentialsException || r.error == ValidationFailure
    ensures r == Err(ValidationFailure) <==>
      var d := c.decode(token, now);
      d.Some? && !SubjectMissing(d.value) && !SubjectIsString(d.value)
  {
    match c.decode(token, now)
    case None => Err(CredentialsException)
    case Some(payload) =>
      if SubjectMissing(payload) then Err(CredentialsException)
      else if !payload["sub"].JString? then Err(ValidationFailure)
      else
        match FindByUsername(t, payload["sub"].s)
        case None => Err(CredentialsException)
        case Some(id) => Ok((id, t[id]))
  }

  /** Rejection path one: a token that does not decode (bad signature, expired) gets the 401. */
  lemma RejectsUndecodableToken(t: UserTable, c: Codec, token: string, now: int)
    requires c.decode(token, now).None?
    ensures GetCurrentUser(t, c, token, now) == Err(CredentialsException)
  {
  }

  /** Rejection path two: a decoded payload without a (non-null) `sub` gets the 401. */
  lemma RejectsMissingSubject(t: UserTable, c: Codec, token: string, now: int)
    requires c.decode(token, now).Some? && SubjectMissing(c.decode(token, now).value)
    ensures GetCurrentUser(t, c, token, now) == Err(CredentialsException)
  {
  }

  /** Rejection path three: a `sub` naming no user gets the 401. */
  lemma RejectsUnknownSubject(t: UserTable, c: Codec, token: string, now: int)
    requires c.decode(token, now).Some? && SubjectIsString(c.decode(token, now).value)
    requires !HasUsername(t, c.decode(token, now).value["sub"].s)
    ensures GetCurrentUser(t, c, token, now) == Err(CredentialsException)
  {
  }
}

=== FILE: enums.dfy ===
/** The meal types a recipe can have. */
module Enums {

  /** `MealType(str, Enum)`: four members whose values are their names. */
  datatype MealType = Breakfast | Lunch | Dinner | Dessert

  /** `type.value`, the string a member stands for. */
  function MealTypeValue(t: MealType): string
  {
    match t
    case Breakfast => "breakfast"
    case Lunch => "lunch"
    case Dinner => "dinner"
    case Dessert => "dessert"
  }

  /** Distinct members have distinct values, so the value identifies the member. */
  lemma MealTypeValueInjective(a: MealType, b: MealType)
    ensures MealTypeValue(a) == MealTypeValue(b) <==> a == b
  {
  }
}

=== FILE: http.dfy ===
/** The error responses the routers raise, and the status codes they use. */
module Http {

  const UNAUTHORIZED: nat := 401
  const NOT_FOUND: nat := 404
  const INTERNAL_SERVER_ERROR: nat := 500

  /** FastAPI's `HTTPException`: a status, a detail message and extra response headers. */
  datatype HttpException = HttpException(status: nat, detail: string, headers: map<string, string>)

  /** Everything a request handler can end with instead of a normal response. */
  datatype Failure =
    /** An `HTTPException` raised on purpose by a handler. */
    | Raised(exception: HttpException)
    /** A unique or primary-key constraint rejected the commit; nothing catches it. */
    | IntegrityViolation
    /** A pydantic model refused a value; nothing catches it. */
    | ValidationFailure
    /** The password library refused the plaintext (too long, or holding a NUL); nothing catches it. */
    | PasswordRefused

  /** A 404 with the given detail and no extra headers. */
  function NotFound(detail: string): Failure
  {
    Raised(HttpException(NOT_FOUND, detail, map[]))
  }

  /** The status code the client sees; uncaught exceptions become a 500. */
  function Status(f: Failure): nat
  {
    match f
    case Raised(e) => e.status
    case IntegrityViolation => INTERNAL_SERVER_ERROR
    case ValidationFailure => INTERNAL_SERVER_ERROR
    case PasswordRefused => INTERNAL_SERVER_ERROR
  }
}

=== FILE: ids.dfy ===
/** Row identifiers: 128-bit UUIDs and their canonical text form. */
module Ids {
  import opened Text

  /** The `UUID(as_uuid=True)` primary key, as its 128-bit value. */
  newtype Uuid = x: int | 0 <= x < 0x1_0000_0000_0000_0000_0000_0000_0000_0000

  /** The positions of the four hyphens in the 8-4-4-4-12 layout. */
  predicate IsHyphenPosition(i: int)
  {
    i == 8 || i == 13 || i == 18 || i == 23
  }

  /** The 32 digits of a 36-character UUID text, hyphens dropped. */
  function UuidDigits(r: string): (d: string)
    requires |r| == 36
    ensures |d| == 32
    ensures forall j :: 0 <= j < 32 ==> d[j] == r[j + HyphensBefore(j)]
    ensures forall j :: 0 <= j < 32 ==> !IsHyphenPosition(j + HyphensBefore(j))
  {
    r[..8] + r[9..13] + r[14..18] + r[19..23] + r[24..]
  }

  /** How many hyphens precede the `j`-th digit. */
  function HyphensBefore(j: int): int
  {
    if j < 8 then 0 else if j < 12 then 1 else if j < 16 then 2 else if j < 20 then 3 else 4
  }

  lemma Pow16Of32()
    ensures Pow16(32) == 0x1_0000_0000_0000_0000_0000_0000_0000_0000
  {
    assert Pow16(8) == 0x1_0000_0000;
    assert Pow16(16) == Pow16(8) * Pow16(8) by { Pow16Add(8, 8); }
    assert Pow16(32) == Pow16(16) * Pow16(16) by { Pow16Add(16, 16); }
  }

  lemma {:induction false} Pow16Add(a: nat, b: nat)
    ensures Pow16(a + b) == Pow16(a) * Pow16(b)
  {
    if a > 0 {
      Pow16Add(a - 1, b);
      assert Pow16(a + b) == 16 * Pow16(a - 1 + b);
    }
  }

  /** The 8-4-4-4-12 grouping of 32 digits. */
  function Group(h: string): string
    requires |h| == 32
  {
    h[..8] + "-" + h[8..12] + "-" + h[12..16] + "-" + h[16..20] + "-" + h[20..]
  }

  /** Each character of the grouping is a hyphen or the digit it came from. */
  lemma GroupLayout(h: string)
    requires |h| == 32
    ensures |Group(h)| == 36
    ensures forall i :: 0 <= i < 36 && IsHyphenPosition(i) ==> Group(h)[i] == '-'
    ensures forall j :: 0 <= j < 32 ==> Group(h)[j + HyphensBefore(j)] == h[j]
  {
    var r := Group(h);
    assert r[..8] == h[..8];
    assert r[9..13] == h[8..12];
    assert r[14..18] == h[12..16];
    assert r[19..23] == h[16..20];
    assert r[24..] == h[20..];
    forall j | 0 <= j < 32 ensures r[j + HyphensBefore(j)] == h[j] {
      if j < 8 { assert r[j] == r[..8][j]; }
      else if j < 12 { assert r[j + 1] == r[9..13][j - 8]; }
      else if j < 16 { assert r[j + 2] == r[14..18][j - 12]; }
      else if j < 20 { assert r[j + 3] == r[19..23][j - 16]; }
      else { assert r[j + 4] == r[24..][j - 20]; }
    }
  }

  /** Every position but a hyphen holds a digit: the hyphens are the only gaps. */
  lemma DigitPositions(i: int)
    requires 0 <= i < 36 && !IsHyphenPosition(i)
    ensures var j := DigitIndex(i); 0 <= j < 32 && j + HyphensBefore(j) == i
  {
  }

  /** The digit shown at text position `i`. */
  function DigitIndex(i: int): int
  {
    if i < 8 then i else if i < 13 then i - 1 else if i < 18 then i - 2 else if i < 23 then i - 3 else i - 4
  }

  /**
   * `str(id)`: hex digits at every position except the four hyphens, and the
   * digits, read as a hexadecimal number, give back `id`.
   */
  function UuidText(id: Uuid): (r: string)
    ensures |r| == 36
    ensures forall i :: 0 <= i < 36 ==> if IsHyphenPosition(i) then r[i] == '-' else IsHexDigit(r[i])
    ensures HexValue(UuidDigits(r)) == id as nat
  {
    var h := Hex(id as nat, 32);
    GroupLayout(h);
    var r := Group(h);
    forall i | 0 <= i < 36 && !IsHyphenPosition(i) ensures IsHexDigit(r[i]) {
      DigitPositions(i);
    }
    assert UuidDigits(r) == h;
    HexValueOfHex(id as nat, 32);
    Pow16Of32();
    r
  }

  /** Distinct keys print differently, so a 404 detail names exactly one key. */
  lemma UuidTextInjective(a: Uuid, b: Uuid)
    ensures UuidText(a) == UuidText(b) <==> a == b
  {
  }
}

=== FILE: recipe_router.dfy ===
/**
 * The recipe endpoints as pure functions over the recipe table.
 *
 * The table is a finite map from primary key to row. A handler that writes
 * returns the table after its commit; a handler that only reads returns no
 * table, so it cannot change one. Query results are sets: the queries carry no
 * ordering.
 */
module RecipeRouter {
  import opened Wrappers
  import opened Http
  import opened Enums
  import opened Ids
  import opened Text
  import opened RecipeSchema

  type RecipeTable = map<Uuid, Recipe>

  /** `RecipeResponse`: a stored row together with its primary key. */
  datatype RecipeResponse = RecipeResponse(id: Uuid, recipe: Recipe)

  /** The response is exactly what the table holds under its id. */
  ghost predicate Stored(t: RecipeTable, v: RecipeResponse)
  {
    v.id in t && t[v.id] == v.recipe
  }

  /** The name search predicate: the lower-cased query occurs in the lower-cased name. */
  predicate NameMatches(name: string, query: string)
  {
    Occurs(Lower(query), Lower(name))
  }

  /**
   * `create_recipe`: add a row built from the six body fields under the key
   * SQLAlchemy generates with `uuid4` on insert (`id`, a parameter here). A key already in use makes the
   * commit fail on the primary key.
   */
  function CreateRecipe(t: RecipeTable, id: Uuid, body: Recipe): (r: Result<(RecipeTable, RecipeResponse), Failure>)
    ensures r.Ok? <==> id !in t
    ensures r.Err? ==> r.error == IntegrityViolation
    ensures r.Ok? ==> r.value.0.Keys == t.Keys + {id}
    ensures r.Ok? ==> r.value.0[id] == body && r.value.1 == RecipeResponse(id, body)
    ensures r.Ok? ==> forall k :: k in t ==> r.value.0[k] == t[k]
  {
    if id in t then Err(IntegrityViolation)
    else Ok((t[id := body], RecipeResponse(id, body)))
  }

  /** `get_recipes`: every stored row, and nothing else. */
  function GetRecipes(t: RecipeTable): (rs: set<RecipeResponse>)
    ensures forall v :: v in rs <==> Stored(t, v)
  {
    set id | id in t :: RecipeResponse(id, t[id])
  }

  /** `filter_recipe_by_meal_type`: the rows of that meal type; a 404 when there are none. */
  function FilterByMealType(t: RecipeTable, mealType: MealType): (r: Result<set<RecipeResponse>, Failure>)
    ensures r.Ok? <==> exists id :: id in t && t[id].mealType == mealType
    ensures r.Ok? ==> forall v :: v in r.value <==> Stored(t, v) && v.recipe.mealType == mealType
    ensures r.Err? ==> r.error == NotFound("No recipes found with meal type " + MealTypeValue(mealType))
  {
    var found := set id | id in t && t[id].mealType == mealType :: RecipeResponse(id, t[id]);
    if found == {} then
      NotFoundWhenNoneMatch(t, mealType, found);
      Err(NotFound("No recipes found with meal type " + MealTypeValue(mealType)))
    else
      Ok(found)
  }

  /** The filter's result set is empty exactly when no row has the meal type. */
  lemma NotFoundWhenNoneMatch(t: RecipeTable, mealType: MealType, found: set<RecipeResponse>)
    requires found == set id | id in t && t[id].mealType == mealType :: RecipeResponse(id, t[id])
    ensures found == {} <==> !exists id :: id in t && t[id].mealType == mealType
  {
    if exists id :: id in t && t[id].mealType == mealType {
      var id :| id in t && t[id].mealType == mealType;
      assert RecipeResponse(id, t[id]) in found;
    }
  }

  /** `search_recipe`: the rows whose name contains the query, ignoring case; a 404 when there are none. */
  function SearchRecipe(t: RecipeTable, name: string): (r: Result<set<RecipeResponse>, Failure>)
    ensures r.Ok? <==> exists id :: id in t && ContainsSubstring(Lower(t[id].name), Lower(name))
    ensures r.Ok? ==> forall v :: v in r.value <==> Stored(t, v) && ContainsSubstring(Lower(v.recipe.name), Lower(name))
    ensures r.Err? ==> r.error == NotFound("No recipes found with name containing, " + name)
  {
    var found := set id | id in t && NameMatches(t[id].name, name) :: RecipeResponse(id, t[id]);
    if found == {} then
      NoNameMatches(t, name, found);
      Err(NotFound("No recipes found with name containing, " + name))
    else
      Ok(found)
  }

  /** The search's result set is empty exactly when no lower-cased name contains the lower-cased query. */
  lemma NoNameMatches(t: RecipeTable, name: string, found: set<RecipeResponse>)
    requires found == set id | id in t && NameMatches(t[id].name, name) :: RecipeResponse(id, t[id])
    ensures found == {} <==> !exists id :: id in t && ContainsSubstring(Lower(t[id].name), Lower(name))
  {
    if exists id :: id in t && ContainsSubstring(Lower(t[id].name), Lower(name)) {
      var id :| id in t && ContainsSubstring(Lower(t[id].name), Lower(name));
      assert RecipeResponse(id, t[id]) in found;
    }
  }

  /** `get_recipe_with_id`: the row under that key, or a 404. */
  function GetRecipe(t: RecipeTable, id: Uuid): (r: Result<RecipeResponse, Failure>)
    ensures r.Ok? <==> id in t
    ensures r.Ok? ==> r.value == RecipeResponse(id, t[id])
    ensures r.Err? ==> r.error == NotFound("Recipe with ID, " + UuidText(id) + " does not exist")
  {
    if id !in t then Err(NotFound("Recipe with ID, " + UuidText(id) + " does not exist"))
    else Ok(RecipeResponse(id, t[id]))
  }

  /**
   * `update_recipe`: a 404 for a missing key; otherwise the patch is merged into
   * that row and committed, and the updated row is returned.
   */
  function UpdateRecipe(t: RecipeTable, id: Uuid, patch: RecipePatch): (r: Result<(RecipeTable, RecipeResponse), Failure>)
    ensures r.Ok? <==> id in t
    ensures r.Err? ==> r.error == NotFound("Recipe with ID, " + UuidText(id) + " not found")
    ensures r.Ok? ==> r.value.0.Keys == t.Keys
    ensures r.Ok? ==> r.value.0[id] == ApplyPatch(t[id], patch) && r.value.1 == RecipeResponse(id, r.value.0[id])
    ensures r.Ok? ==> forall k :: k in t && k != id ==> r.value.0[k] == t[k]
  {
    if id !in t then Err(NotFound("Recipe with ID, " + UuidText(id) + " not found"))
    else
      var updated := ApplyPatch(t[id], patch);
      Ok((t[id := updated], RecipeResponse(id, updated)))
  }

  /** `delete_recipe`: a 404 for a missing key; otherwise exactly that row is removed. */
  function DeleteRecipe(t: RecipeTable, id: Uuid): (r: Result<RecipeTable, Failure>)
    ensures r.Ok? <==> id in t
    ensures r.Err? ==> r.error == NotFound("Recipe with ID, " + UuidText(id) + " not found.")
    ensures r.Ok? ==> r.value.Keys == t.Keys - {id}
    ensures r.Ok? ==> forall k :: k in r.value ==> r.value[k] == t[k]
  {
    if id !in t then Err(NotFound("Recipe with ID, " + UuidText(id) + " not found."))
    else Ok(t - {id})
  }

  // Properties relating the handlers to one another.

  /** A created recipe is then found under its key, and the listing grows by exactly that row. */
  lemma CreateThenRead(t: RecipeTable, id: Uuid, body: Recipe)
    requires id !in t
    ensures var t' := CreateRecipe(t, id, body).value.0;
      && GetRecipe(t', id) == Ok(RecipeResponse(id, body))
      && GetRecipes(t') == GetRecipes(t) + {RecipeResponse(id, body)}
  {
    var t' := CreateRecipe(t, id, body).value.0;
    forall v | v in GetRecipes(t') ensures v in GetRecipes(t) + {RecipeResponse(id, body)} {
      assert Stored(t', v);
      if v.id != id {
        assert Stored(t, v);
      }
    }
    forall v | v in GetRecipes(t) + {RecipeResponse(id, body)} ensures v in GetRecipes(t') {
      if v != RecipeResponse(id, body) {
        assert Stored(t, v);
        assert Stored(t', v);
      } else {
        assert Stored(t', v);
      }
    }
  }

  /** A created recipe is listed by the filter for its meal type, so that filter no longer 404s. */
  lemma CreateThenFilter(t: RecipeTable, id: Uuid, body: Recipe)
    requires id !in t
    ensures var r := FilterByMealType(CreateRecipe(t, id, body).value.0, body.mealType);
      r.Ok? && RecipeResponse(id, body) in r.value
  {
    var t' := CreateRecipe(t, id, body).value.0;
    assert t'[id].mealType == body.mealType;
  }

  /** Deleting the row just created gives back the table as it was. */
  lemma CreateThenDeleteRestores(t: RecipeTable, id: Uuid, body: Recipe)
    requires id !in t
    ensures DeleteRecipe(CreateRecipe(t, id, body).value.0, id) == Ok(t)
  {
    var t' := CreateRecipe(t, id, body).value.0;
    assert t' - {id} == t;
  }

  /** A second delete of the same key is a 404, and the first already removed the row. */
  lemma DeleteTwiceFails(t: RecipeTable, id: Uuid)
    requires id in t
    ensures var r := DeleteRecipe(t, id);
      && r.Ok?
      && GetRecipe(r.value, id).Err?
      && DeleteRecipe(r.value, id) == Err(NotFound("Recipe with ID, " + UuidText(id) + " not found."))
  {
  }

  /** An update body with no field set commits the row unchanged. */
  lemma UpdateWithEmptyPatchKeepsTable(t: RecipeTable, id: Uuid)
    requires id in t
    ensures UpdateRecipe(t, id, EmptyPatch) == Ok((t, RecipeResponse(id, t[id])))
  {
    EmptyPatchIsIdentity(t[id]);
    assert t[id := t[id]] == t;
  }

  /** Sending the same update twice leaves the table as one update does. */
  lemma UpdateIdempotent(t: RecipeTable, id: Uuid, patch: RecipePatch)
    requires id in t
    ensures var once := UpdateRecipe(t, id, patch).value.0;
      UpdateRecipe(once, id, patch) == Ok((once, RecipeResponse(id, once[id])))
  {
    var once := UpdateRecipe(t, id, patch).value.0;
    ApplyPatchIdempotent(t[id], patch);
    assert once[id := once[id]] == once;
  }

  /** The rows a query found, or none when it answered 404. */
  function Found(r: Result<set<RecipeResponse>, Failure>): set<RecipeResponse>
  {
    if r.Ok? then r.value else {}
  }

  /** A stored row is found by the filter for its own meal type. */
  lemma FoundByOwnMealType(t: RecipeTable, v: RecipeResponse)
    requires Stored(t, v)
    ensures v in Found(FilterByMealType(t, v.recipe.mealType))
  {
    assert t[v.id].mealType == v.recipe.mealType;
  }

  /** The four meal-type filters together list exactly the whole table. */
  lemma FiltersPartitionListing(t: RecipeTable)
    ensures GetRecipes(t) ==
      Found(FilterByMealType(t, Breakfast)) + Found(FilterByMealType(t, Lunch))
      + Found(FilterByMealType(t, Dinner)) + Found(FilterByMealType(t, Dessert))
  {
    var b, l, d, s := Found(FilterByMealType(t, Breakfast)), Found(FilterByMealType(t, Lunch)),
      Found(FilterByMealType(t, Dinner)), Found(FilterByMealType(t, Dessert));
    assert b + l + d + s <= GetRecipes(t);
    forall v | v in GetRecipes(t) ensures v in b + l + d + s {
      FoundByOwnMealType(t, v);
      match v.recipe.mealType
      case Breakfast => assert v in b;
      case Lunch => assert v in l;
      case Dinner => assert v in d;
      case Dessert => assert v in s;
    }
  }

  /** The search ignores the case of the query: queries equal after lower-casing give the same rows. */
  lemma SearchIgnoresQueryCase(t: RecipeTable, q1: string, q2: string)
    requires Lower(q1) == Lower(q2)
    ensures SearchRecipe(t, q1).Ok? == SearchRecipe(t, q2).Ok?
    ensures SearchRecipe(t, q1).Ok? ==> SearchRecipe(t, q1).value == SearchRecipe(t, q2).value
  {
  }

  /** An empty query matches every name: it lists the whole table, or 404s on an empty one. */
  lemma EmptySearchListsAll(t: RecipeTable)
    ensures t != map[] ==> SearchRecipe(t, "") == Ok(GetRecipes(t))
    ensures t == map[] ==> SearchRecipe(t, "").Err?
  {
    forall id | id in t ensures NameMatches(t[id].name, "") {
      EmptyOccursEverywhere(Lower(t[id].name));
    }
    if t != map[] {
      var id :| id in t;
      assert ContainsSubstring(Lower(t[id].name), Lower(""));
      var r := SearchRecipe(t, "");
      assert r.Ok?;
      forall v | v in GetRecipes(t) ensures v in r.value {
        assert Stored(t, v);
        assert NameMatches(v.recipe.name, "");
        assert ContainsSubstring(Lower(v.recipe.name), Lower(""));
      }
      assert r.value <= GetRecipes(t);
      assert r.value == GetRecipes(t);
    }
  }
}

=== FILE: recipe_schema.dfy ===
/**
 * The recipe record and the partial update applied to it.
 *
 * `Recipe` holds the six fields of `RecipeBase`. The update body is imported by
 * the recipe router as `RecipeUpdate` but no such schema is defined, so
 * `RecipePatch` is this model's own reading: each of the six fields, optionally.
 */
module RecipeSchema {
  import opened Wrappers
  import opened Enums

  datatype Recipe = Recipe(
    name: string,
    description: string,
    ingredients: string,
    instructions: string,
    servings: string,
    mealType: MealType)

  /** The fields a client set in an update body; `None` marks a field left unset. */
  datatype RecipePatch = RecipePatch(
    name: Option<string>,
    description: Option<string>,
    ingredients: Option<string>,
    instructions: Option<string>,
    servings: Option<string>,
    mealType: Option<MealType>)

  /** A patch with no field set. */
  const EmptyPatch := RecipePatch(None, None, None, None, None, None)

  /** The value a field ends with: the patch's when it was set, the old one otherwise. */
  function Pick<T>(patched: Option<T>, current: T): T
  {
    match patched
    case Some(v) => v
    case None => current
  }

  /**
   * The merge loop of the update handler: every field present in the patch is
   * overwritten with the patch's value, every other field keeps its value.
   */
  function ApplyPatch(r: Recipe, p: RecipePatch): (r': Recipe)
    ensures p.name.Some? ==> r'.name == p.name.value
    ensures p.name.None? ==> r'.name == r.name
    ensures p.description.Some? ==> r'.description == p.description.value
    ensures p.description.None? ==> r'.description == r.description
    ensures p.ingredients.Some? ==> r'.ingredients == p.ingredients.value
    ensures p.ingredients.None? ==> r'.ingredients == r.ingredients
    ensures p.instructions.Some? ==> r'.instructions == p.instructions.value
    ensures p.instructions.None? ==> r'.instructions == r.instructions
    ensures p.servings.Some? ==> r'.servings == p.servings.value
    ensures p.servings.None? ==> r'.servings == r.servings
    ensures p.mealType.Some? ==> r'.mealType == p.mealType.value
    ensures p.mealType.None? ==> r'.mealType == r.mealType
  {
    Recipe(
      Pick(p.name, r.name),
      Pick(p.description, r.description),
      Pick(p.ingredients, r.ingredients),
      Pick(p.instructions, r.instructions),
      Pick(p.servings, r.servings),
      Pick(p.mealType, r.mealType))
  }

  /** The patch that sets every field to the given recipe's value. */
  function FullPatch(r: Recipe): RecipePatch
  {
    RecipePatch(Some(r.name), Some(r.description), Some(r.ingredients),
                Some(r.instructions), Some(r.servings), Some(r.mealType))
  }

  /** Two patches applied in turn: the later one wins on every field it sets. */
  function ThenPatch(first: RecipePatch, second: RecipePatch): RecipePatch
  {
    RecipePatch(
      if second.name.Some? then second.name else first.name,
      if second.description.Some? then second.description else first.description,
      if second.ingredients.Some? then second.ingredients else first.ingredients,
      if second.instructions.Some? then second.instructions else first.instructions,
      if second.servings.Some? then second.servings else first.servings,
      if second.mealType.Some? then second.mealType else first.mealType)
  }

  /** An update body with no field set leaves the recipe as it was. */
  lemma EmptyPatchIsIdentity(r: Recipe)
    ensures ApplyPatch(r, EmptyPatch) == r
  {
  }

  /** Sending the same update body twice has the effect of sending it once. */
  lemma ApplyPatchIdempotent(r: Recipe, p: RecipePatch)
    ensures ApplyPatch(ApplyPatch(r, p), p) == ApplyPatch(r, p)
  {
  }

  /** A body that sets every field replaces the recipe wholesale, whatever it was. */
  lemma FullPatchReplaces(r: Recipe, target: Recipe)
    ensures ApplyPatch(r, FullPatch(target)) == target
  {
  }

  /** Two updates in a row equal one update carrying the later value of each field. */
  lemma ApplyPatchComposes(r: Recipe, p: RecipePatch, q: RecipePatch)
    ensures ApplyPatch(ApplyPatch(r, p), q) == ApplyPatch(r, ThenPatch(p, q))
  {
  }
}

=== FILE: text.dfy ===
/**
 * Text helpers the handlers rely on: ASCII lower-casing and substring search
 * (the case-insensitive `ILIKE '%q%'` of the name search), and the canonical
 * text form of a UUID that appears in error details.
 */
module Text {

  /** Lower-cases an ASCII capital letter; every other character is kept. */
  function LowerChar(c: char): char
  {
    if 'A' <= c <= 'Z' then (c as int - 'A' as int + 'a' as int) as char else c
  }

  function Lower(s: string): (r: string)
    ensures |r| == |s|
    ensures forall i :: 0 <= i < |s| ==> r[i] == LowerChar(s[i])
  {
    seq(|s|, i requires 0 <= i < |s| => LowerChar(s[i]))
  }

  /** `q` sits in `s` starting at index `i`. */
  ghost predicate OccursAt(q: string, s: string, i: int)
  {
    0 <= i && i + |q| <= |s| && s[i..i + |q|] == q
  }

  /** The reference meaning of "s contains q". */
  ghost predicate ContainsSubstring(s: string, q: string)
  {
    exists i :: OccursAt(q, s, i)
  }

  /** Occurrences in `s[1..]` are occurrences in `s` one place later, and back. */
  lemma OccursInTail(q: string, s: string)
    requires |s| > 0
    ensures ContainsSubstring(s, q) <==> (q <= s || ContainsSubstring(s[1..], q))
  {
    if ContainsSubstring(s, q) {
      var i :| OccursAt(q, s, i);
      if i > 0 {
        assert s[1..][i - 1..i - 1 + |q|] == s[i..i + |q|];
        assert OccursAt(q, s[1..], i - 1);
      } else {
        assert s[..|q|] == q;
      }
    }
    if q <= s {
      assert s[0..|q|] == q;
      assert OccursAt(q, s, 0);
    }
    if ContainsSubstring(s[1..], q) {
      var j :| OccursAt(q, s[1..], j);
      assert s[j + 1..j + 1 + |q|] == s[1..][j..j + |q|];
      assert OccursAt(q, s, j + 1);
    }
  }

  /** Executable substring test: does `q` occur anywhere in `s`? */
  function Occurs(q: string, s: string): (r: bool)
    decreases |s|
    ensures r <==> ContainsSubstring(s, q)
  {
    if |q| > |s| then
      assert !ContainsSubstring(s, q);
      false
    else if q <= s then
      assert OccursAt(q, s, 0);
      true
    else
      OccursInTail(q, s);
      Occurs(q, s[1..])
  }

  /** The empty string occurs in every string, as `ILIKE '%%'` matches every name. */
  lemma EmptyOccursEverywhere(s: string)
    ensures Occurs("", s)
  {
    assert OccursAt("", s, 0);
  }

  /** One lower-case hexadecimal digit. */
  function HexDigit(d: nat): char
    requires d < 16
  {
    if d < 10 then ('0' as int + d) as char else ('a' as int + d - 10) as char
  }

  predicate IsHexDigit(c: char)
  {
    '0' <= c <= '9' || 'a' <= c <= 'f'
  }

  /** The value of a lower-case hexadecimal digit. */
  function DigitValue(c: char): nat
    requires IsHexDigit(c)
  {
    if '0' <= c <= '9' then c as int - '0' as int else c as int - 'a' as int + 10
  }

  /** Reading a digit back gives the value it was written from. */
  lemma DigitValueOfHexDigit(d: nat)
    requires d < 16
    ensures IsHexDigit(HexDigit(d)) && DigitValue(HexDigit(d)) == d
  {
  }

  function Pow16(k: nat): (p: nat)
    ensures p > 0
  {
    if k == 0 then 1 else 16 * Pow16(k - 1)
  }

  /** The number a string of hexadecimal digits denotes, most significant digit first. */
  function HexValue(s: string): nat
    requires forall i :: 0 <= i < |s| ==> IsHexDigit(s[i])
  {
    if |s| == 0 then 0 else HexValue(s[..|s| - 1]) * 16 + DigitValue(s[|s| - 1])
  }

  /** The lowest `width` hexadecimal digits of `n`, most significant first, zero-padded. */
  function Hex(n: nat, width: nat): (r: string)
    ensures |r| == width
    ensures forall i :: 0 <= i < |r| ==> IsHexDigit(r[i])
  {
    if width == 0 then "" else Hex(n / 16, width - 1) + [HexDigit(n % 16)]
  }

  /** Splitting off the last hexadecimal digit: `n mod 16P` from `(n div 16) mod P` and `n mod 16`. */
  lemma ModSixteenSplit(n: nat, p: nat)
    requires p > 0
    ensures (n / 16 % p) * 16 + n % 16 == n % (16 * p)
  {
    var q, r := n / 16, n % 16;
    var a, b := q / p, q % p;
    assert n == 16 * q + r;
    assert q == p * a + b;
    assert n == (16 * p) * a + (16 * b + r) by {
      assert 16 * q == 16 * (p * a) + 16 * b;
      assert 16 * (p * a) == (16 * p) * a;
    }
    assert 0 <= 16 * b + r < 16 * p;
    ModUnique(n, 16 * p, a, 16 * b + r);
  }

  /** A remainder is the one value below the divisor that completes a multiple to `n`. */
  lemma ModUnique(n: nat, d: nat, a: int, r: int)
    requires d > 0 && 0 <= r < d && n == d * a + r
    ensures n % d == r
  {
    var a', r' := n / d, n % d;
    assert d * a' + r' == n;
    assert d * (a - a') == r' - r by {
      assert d * (a - a') == d * a - d * a';
    }
    if a > a' {
      MultiplyAtLeastOnce(d, a - a');
    } else if a < a' {
      assert d * (a' - a) == r - r';
      MultiplyAtLeastOnce(d, a' - a);
    }
  }

  lemma MultiplyAtLeastOnce(d: nat, x: int)
    requires x >= 1
    ensures d * x >= d
  {
    assert d * x == d + d * (x - 1);
  }

  /** Reading the digits back yields `n` reduced to the width written. */
  lemma {:induction false} HexValueOfHex(n: nat, width: nat)
    ensures HexValue(Hex(n, width)) == n % Pow16(width)
  {
    if width > 0 {
      var h := Hex(n, width);
      assert h[..|h| - 1] == Hex(n / 16, width - 1);
      DigitValueOfHexDigit(n % 16);
      HexValueOfHex(n / 16, width - 1);
      ModSixteenSplit(n, Pow16(width - 1));
    }
  }
}

=== FILE: user_router.dfy ===
/** The user endpoints: registration, login and lookup by key. */
module UserRouter {
  import opened Wrappers
  import opened Http
  import opened Ids
  import opened Users
  import opened Auth

  /** `UserCreate`: the registration body. */
  datatype UserCreate = UserCreate(name: string, email: string, username: string, password: string)

  /** `UserResponse`: a user as returned to the client, without the password digest. */
  datatype UserResponse = UserResponse(id: Uuid, name: string, email: string, username: string)

  /** `UserLogin`: the login body. */
  datatype UserLogin = UserLogin(email: string, password: string)

  /** `Token`: the login response. */
  datatype Token = Token(accessToken: string, tokenType: string)

  /**
   * `create_user`: hash the password and insert the row under the key
   * SQLAlchemy generates with `uuid4` on insert (`id`); `salt` is the hasher's randomness. A key, email
   * or username already in use makes the commit fail, and the handler does not
   * catch that failure. Hashing comes first, so a password the library
   * refuses fails the request before any row is written.
   */
  function CreateUser(t: UserTable, h: Hasher, id: Uuid, salt: string, body: UserCreate)
    : (r: Result<(UserTable, UserResponse), Failure>)
    ensures r.Ok? <==>
      SecretAccepted(body.password) && id !in t && !HasEmail(t, body.email) && !HasUsername(t, body.username)
    ensures r.Err? ==> r.error == if SecretAccepted(body.password) then IntegrityViolation else PasswordRefused
    ensures r.Ok? ==> r.value.0.Keys == t.Keys + {id}
    ensures r.Ok? ==> forall k :: k in t ==> r.value.0[k] == t[k]
    ensures r.Ok? ==> var u := r.value.0[id];
      && u.name == body.name && u.email == body.email && u.username == body.username
      && HashPassword(h, body.password, salt) == Ok(u.password)
    ensures r.Ok? ==> r.value.1 == UserResponse(id, body.name, body.email, body.username)
  {
    match HashPassword(h, body.password, salt)
    case Err(e) => Err(e)
    case Ok(digest) =>
    if id in t || FindByEmail(t, body.email).Some? || FindByUsername(t, body.username).Some? then
      Err(IntegrityViolation)
    else
      var row := User(body.name, body.email, body.username, digest);
      var t': UserTable := t[id := row];
      Ok((t', UserResponse(id, body.name, body.email, body.username)))
  }

  /** A registered user's password verifies against the stored digest. */
  lemma RegisteredPasswordVerifies(t: UserTable, h: Hasher, id: Uuid, salt: string, body: UserCreate)
    requires SoundHasher(h)
    requires CreateUser(t, h, id, salt, body).Ok?
    ensures VerifyPassword(h, body.password, CreateUser(t, h, id, salt, body).value.0[id].password) == Ok(true)
  {
    HashThenVerify(h, body.password, salt);
  }

  /** A hasher whose digests never equal their input never lets the plaintext reach the table. */
  lemma PlaintextNeverStored(t: UserTable, h: Hasher, id: Uuid, salt: string, body: UserCreate)
    requires forall p, s :: h.hash(p, s) != p
    requires CreateUser(t, h, id, salt, body).Ok?
    ensures CreateUser(t, h, id, salt, body).value.0[id].password != body.password
  {
  }

  /** A taken email or username is refused (as the commit fails), and no new table comes out. */
  lemma DuplicateRegistrationRejected(t: UserTable, h: Hasher, id: Uuid, salt: string, body: UserCreate, other: Uuid)
    requires other in t
    requires t[other].email == body.email || t[other].username == body.username
    ensures CreateUser(t, h, id, salt, body).Err?
    ensures SecretAccepted(body.password) ==> CreateUser(t, h, id, salt, body) == Err(IntegrityViolation)
  {
  }

  /** `timedelta(minutes=m)` in seconds. */
  function MinutesToSeconds(minutes: int): int
  {
    minutes * 60
  }

  /** The payload a successful login signs for `username`. */
  function SessionClaims(username: string, expireMinutes: int, now: int): Payload
  {
    AccessClaims(map["sub" := JString(username)], Some(MinutesToSeconds(expireMinutes)), now)
  }

  /**
   * `login`: find the user by email and check the password; either failure is a
   * 404 (the two details differ by a trailing "!"). Checking a password the
   * library refuses raises instead, and nothing catches it. On success the token
   * carries the username as `sub` and expires `expireMinutes` minutes from
   * `now` (`ACCESS_TOKEN_EXPIRE_MINUTES`), or fifteen minutes when that is zero.
   */
  function Login(t: UserTable, h: Hasher, c: Codec, expireMinutes: int, now: int, body: UserLogin)
    : (r: Result<Token, Failure>)
    ensures !HasEmail(t, body.email) ==> r == Err(NotFound("Invalid credentials!"))
    ensures forall id :: id in t && t[id].email == body.email ==>
      if !SecretAccepted(body.password) then r == Err(PasswordRefused)
      else if !h.verify(body.password, t[id].password) then r == Err(NotFound("Invalid credentials"))
      else
        && r.Ok?
        && r.value.tokenType == "bearer"
        && r.value.accessToken == c.encode(map[
             "sub" := JString(t[id].username),
             "exp" := JNumber(now + if expireMinutes != 0 then 60 * expireMinutes else 900)])
  {
    match FindByEmail(t, body.email)
    case None => Err(NotFound("Invalid credentials!"))
    case Some(id) =>
      match VerifyPassword(h, body.password, t[id].password)
      case Err(e) => Err(e)
      case Ok(false) => Err(NotFound("Invalid credentials"))
      case Ok(true) =>
        var token := CreateAccessToken(c, map["sub" := JString(t[id].username)], Some(MinutesToSeconds(expireMinutes)), now);
        Ok(Token(token, "bearer"))
  }

  /**
   * Unknown email and wrong password are both 404s carrying no token; only the
   * detail's trailing "!" tells them apart. The one other failure is the 500
   * from a refused password for a known email.
   */
  lemma LoginFailuresLookAlike(t: UserTable, h: Hasher, c: Codec, expireMinutes: int, now: int, body: UserLogin)
    requires Login(t, h, c, expireMinutes, now, body).Err?
    ensures var e := Login(t, h, c, expireMinutes, now, body).error;
      e == PasswordRefused <==> HasEmail(t, body.email) && !SecretAccepted(body.password)
    ensures var e := Login(t, h, c, expireMinutes, now, body).error;
      e != PasswordRefused ==>
        && Status(e) == NOT_FOUND
        && (e.exception.detail == "Invalid credentials!" || e.exception.detail == "Invalid credentials")
  {
  }

  /**
   * A token from a successful login opens the bearer gate for the same user
   * until it expires, and is refused from its expiry on.
   */
  lemma LoginThenAuthenticate(t: UserTable, h: Hasher, c: Codec, expireMinutes: int, now: int, body: UserLogin, id: Uuid, later: int)
    requires SoundCodec(c)
    requires id in t && t[id].email == body.email
    requires Login(t, h, c, expireMinutes, now, body).Ok?
    ensures var token := Login(t, h, c, expireMinutes, now, body).value.accessToken;
      && (later < Expiry(Some(MinutesToSeconds(expireMinutes)), now) ==>
            GetCurrentUser(t, c, token, later) == Ok((id, t[id])))
      && (later >= Expiry(Some(MinutesToSeconds(expireMinutes)), now) ==>
            GetCurrentUser(t, c, token, later) == Err(CredentialsException))
  {
    FindByEmailFindsOwner(t, id);
    FindByUsernameFindsOwner(t, id);
    var token := Login(t, h, c, expireMinutes, now, body).value.accessToken;
    var claims := SessionClaims(t[id].username, expireMinutes, now);
    assert token == CreateAccessToken(c, map["sub" := JString(t[id].username)], Some(MinutesToSeconds(expireMinutes)), now);
    if later < Expiry(Some(MinutesToSeconds(expireMinutes)), now) {
      assert c.decode(token, later) == Some(claims);
      assert claims["sub"] == JString(t[id].username);
    }
  }

  /** `get_user`: the stored row for that key (returned as stored), or a 404. */
  function GetUser(t: UserTable, id: Uuid): (r: Result<User, Failure>)
    ensures r.Ok? <==> id in t
    ensures r.Ok? ==> r.value == t[id]
    ensures r.Err? ==> r.error == NotFound("User with the ID " + UuidText(id) + " not found")
  {
    if id !in t then Err(NotFound("User with the ID " + UuidText(id) + " not found"))
    else Ok(t[id])
  }

  /**
   * A registered user reads back under the new key with the fields of the
   * registration body and the digest in place of the password, while the
   * response returned at registration is the same row without the digest.
   */
  lemma CreateThenGetUser(t: UserTable, h: Hasher, id: Uuid, salt: string, body: UserCreate)
    requires CreateUser(t, h, id, salt, body).Ok?
    ensures var (t', response) := CreateUser(t, h, id, salt, body).value;
      && HashPassword(h, body.password, salt).Ok?
      && GetUser(t', id) == Ok(User(body.name, body.email, body.username, HashPassword(h, body.password, salt).value))
      && GetUser(t, id).Err?
      && response.id == id
  {
  }
}

=== FILE: users.dfy ===
/**
 * The user table: rows keyed by primary key, with the email and the username
 * each unique across the table, as the column constraints demand.
 */
module Users {
  import opened Wrappers
  import opened Ids

  /** A stored user; `password` holds the digest, never the plaintext. */
  datatype User = User(name: string, email: string, username: string, password: string)

  /** No two rows share an email, and no two rows share a username. */
  ghost predicate UniqueCredentials(m: map<Uuid, User>)
  {
    forall a, b :: a in m && b in m && a != b ==>
      m[a].email != m[b].email && m[a].username != m[b].username
  }

  /** The states the database can be in: the unique constraints hold. */
  type UserTable = m: map<Uuid, User> | UniqueCredentials(m) witness map[]

  ghost predicate HasEmail(t: UserTable, email: string)
  {
    exists id :: id in t && t[id].email == email
  }

  ghost predicate HasUsername(t: UserTable, username: string)
  {
    exists id :: id in t && t[id].username == username
  }

  /** `filter(User.email == email).first()`: the key of the row with that email, if any. */
  function FindByEmail(t: UserTable, email: string): (r: Option<Uuid>)
    ensures r.Some? <==> HasEmail(t, email)
    ensures r.Some? ==> r.value in t && t[r.value].email == email
  {
    if exists id :: id in t && t[id].email == email then
      var id :| id in t && t[id].email == email;
      Some(id)
    else
      None
  }

  /** `filter(User.username == username).first()`: the key of the row with that username, if any. */
  function FindByUsername(t: UserTable, username: string): (r: Option<Uuid>)
    ensures r.Some? <==> HasUsername(t, username)
    ensures r.Some? ==> r.value in t && t[r.value].username == username
  {
    if exists id :: id in t && t[id].username == username then
      var id :| id in t && t[id].username == username;
      Some(id)
    else
      None
  }

  /** Because emails are unique, the lookup by email finds the one row that has it. */
  lemma FindByEmailFindsOwner(t: UserTable, id: Uuid)
    requires id in t
    ensures FindByEmail(t, t[id].email) == Some(id)
  {
  }

  /** Because usernames are unique, the lookup by username finds the one row that has it. */
  lemma FindByUsernameFindsOwner(t: UserTable, id: Uuid)
    requires id in t
    ensures FindByUsername(t, t[id].username) == Some(id)
  {
  }
}

=== FILE: wrappers.dfy ===
/** Optional values and results that carry either a value or an error. */
module Wrappers {

  /** A value that may be absent: Python's `None` versus a present value. */
  datatype Option<+T> = None | Some(value: T)

  /** The outcome of an operation that either returns a value or raises. */
  datatype Result<+T, +E> = Ok(value: T) | Err(error: E)
}
